=== FILE: README.md ===
# Rightmove search scraper — verified model of its decision and assembly logic

`TheRightmoveScraper` takes the URL of a property search on
www.rightmove.co.uk. It checks the URL and reads how many result pages
there are. For each page it builds a table with one row per property card.
It then reports the average price and a per-group summary. This project
models the class's pure logic in Dafny and proves what that logic promises:

- **Search-URL validation** (`_validate_url`). A status other than 200 is
  rejected first. Otherwise the URL must begin with `http://` or `https://`,
  then `www.rightmove.co.uk/`, then one of five path segments, then
  `/find.html?`. `re.match` anchors only at the start, so this is a prefix
  test over ten literal strings.
- **Classification** (`rent_or_sale`). Substring tests map the URL to sale,
  rent, sale-commercial or rent-commercial.
- **Pagination** (`results_count_display`, `page_count`). The displayed count
  is read with commas removed, or is 0 when the element is absent. The page
  count is `min(ceil(n / 24), 42)`.
- **Page assembly** (`_get_page`). Links are resolved against the site
  origin. Every column is padded with the missing marker up to the longest
  extracted list, the columns are zipped into rows, and rows without an
  address are dropped.
- **Aggregates.** `average_price` divides the sum of the present prices by
  the number of all rows. `summary` chooses the grouping column, raises on a
  missing column, drops unpriced rows, and counts and sums each group.

Network access, HTML parsing and pandas are not modelled. What they produce
becomes an input to the model:

- the `(status, body)` pair of a fetch;
- a function from each structural query to the strings it matched, in
  document order;
- a function from a listing link to its floorplan reference, or the missing
  marker.

Modules, one per component:

| file | module | models |
|---|---|---|
| wrappers.dfy | `Wrappers` | `Option` (the missing marker / `None`) and `Result` (raised errors) |
| strings.dfy | `Strings` | `str.startswith`-style prefix test, Python's `in` on strings, and lemmas for locating a substring |
| search.dfy | `Search` | the five URL shapes, `_validate_url`, `rent_or_sale` as written, and classification by the validated segment |
| classification.dfy | `Classification` | where path markers can occur inside an accepted URL; the substring tests on category names |
| paging.dfy | `Paging` | `int(text.replace(",", ""))`, the displayed count, `page_count` |
| query.dfy | `Query` | the validated search an instance holds: segment, category, displayed count, page count |
| page.dfy | `Page` | `_get_page` and the floorplan column |
| aggregate.dfy | `Aggregate` | `average_price` and `summary` |

The category used for page assembly and for the default summary column is
`Query.OpenSearch`'s category. That category comes from `Search.Classify`,
the corrected classifier described under Findings.

## Model

| member | source | states |
|---|---|---|
| Search.ValidateUrl | TheRightmoveScraper.py:68-82 | A status other than 200 is rejected with that status, whatever the URL. With status 200 the URL is accepted exactly when it begins with one of the ten literal pattern texts. The accepted kind is one the URL matches; a rejected URL is reported as a bad URL. |
| Search.MatchesPatternOne | TheRightmoveScraper.py:75-79 | Running a pattern left to right ("http", an optional "s", then the fixed rest) accepts exactly the URLs that start with either spelling of that pattern. |
| Search.FirstMatch | TheRightmoveScraper.py:81 | `any` over the pattern list finds a pattern exactly when some listed pattern matches. What it returns is a listed pattern that matches. |
| Search.PatternsExclusive | TheRightmoveScraper.py:74-80 | No URL matches the patterns of two different kinds, so the order of the pattern list does not matter. |
| Search.FirstMatchIsTheMatch | TheRightmoveScraper.py:74-81 | For a URL that matches the pattern of kind g, the scan of the pattern list returns g. |
| Search.RentOrSale | TheRightmoveScraper.py:131-144 | As written: the result is a category exactly when some kind's path marker occurs anywhere in the URL, and that category belongs to a kind whose marker occurs; otherwise the URL is rejected. With several markers present the source's test order decides: either sale marker gives sale; otherwise the to-rent marker gives rent; otherwise the commercial-for-sale marker gives sale-commercial; otherwise the commercial-to-let marker gives rent-commercial. |
| Search.Classify | TheRightmoveScraper.py:131-144 | The corrected classifier succeeds exactly on URLs that pass validation. For every such URL it yields the category of the URL's own kind (both for-sale kinds give sale; to-rent gives rent; commercial for sale gives sale-commercial; commercial to let gives rent-commercial). |
| Classification.MarkerInSearchUrl | TheRightmoveScraper.py:135-142 | In a URL made of the pattern for kind g followed by any text, the marker of kind h occurs exactly when h is g or the marker occurs in that text. So "/property-for-sale/" is never found inside "/commercial-property-for-sale/". |
| Classification.RentOrSaleAcceptsValidated | TheRightmoveScraper.py:135-144 | `rent_or_sale` never raises on a URL that passed validation. |
| Classification.RentOrSaleOnMarkerFreeQuery | TheRightmoveScraper.py:135-142 | When the text after the pattern carries no path marker, `rent_or_sale` gives the category of the validated kind and agrees with the corrected classifier. In particular, a commercial-for-sale URL is then never read as plain sale. |
| Classification.RentOrSaleReadsQuery | TheRightmoveScraper.py:135-136 | Take a URL that passes validation for any kind and whose query text contains "/property-for-sale/". `rent_or_sale` classifies it as sale, while the corrected classifier gives the kind's own category. |
| Classification.CommercialLetReadAsSale | TheRightmoveScraper.py:135-136 | A concrete commercial-to-let URL that passes validation: the corrected classifier gives rent-commercial, but `rent_or_sale` gives sale. |
| Classification.CommercialNames | TheRightmoveScraper.py:114 | `"commercial" in rent_or_sale` holds for sale-commercial and rent-commercial and for no other category. |
| Classification.RentNames | TheRightmoveScraper.py:174 | `"rent" in rent_or_sale` holds for rent and rent-commercial and for no other category. |
| Paging.DisplayedCount | TheRightmoveScraper.py:146-155 | With no count element the count is 0. Otherwise it is the integer read from the first element's text with commas removed, and unreadable text is an error. |
| Paging.DisplayedCountRoundTrip | TheRightmoveScraper.py:150-153 | The displayed count reads back exactly n from the site's comma-grouped display of n (e.g. "12,345"), whatever elements follow. |
| Paging.ThousandsDigits | TheRightmoveScraper.py:153 | Removing the commas from the comma-grouped display of n leaves a digit string whose value is n. |
| Paging.ParseIntDigits | TheRightmoveScraper.py:153 | `int()` reads a run of digits with an optional sign, inside any surrounding ASCII white space, as that signed value. |
| Paging.DigitsValueAppend | TheRightmoveScraper.py:153 | Digit strings are positional: the value of a + b is value(a) times 10 to the power of the length of b, plus value(b). |
| Paging.PageCount | TheRightmoveScraper.py:157-164 | The page count never exceeds 42. Below 42 it is the least whole number of 24-listing pages that covers n, so (r-1)*24 < n <= r*24. It is 42 only when n exceeds 41*24. A non-negative count gives a non-negative page count. |
| Paging.PageCountIsCappedCeiling | TheRightmoveScraper.py:161-164 | For any c with (c-1)*24 < n <= c*24 (the ceiling of n/24), the page count is min(c, 42). |
| Paging.PageCountExamples | TheRightmoveScraper.py:161-164 | 0 listings give 0 pages, 24 give 1, 25 give 2, and 2000 give 42. |
| Paging.PageCountMonotone | TheRightmoveScraper.py:161-164 | More listings never give fewer pages. |
| Paging.PagesOfFirstPage | TheRightmoveScraper.py:157-164 | The page count succeeds exactly when the displayed count is readable, and is then the capped page count of that displayed count; an unreadable count fails with the displayed count's error. No count element gives 0 pages, and a result never exceeds 42. |
| Paging.PagesOfDisplayedCount | TheRightmoveScraper.py:157-164 | A first page displaying n listings yields min((n + 23) / 24, 42) pages. |
| Query.OpenSearch | TheRightmoveScraper.py:146-164 | Validation first (lines 32-33): a status other than 200 fails with that status. The search opens exactly when the status is 200, the URL has a search shape and the count is readable. An opened search records the kind its URL matches and that kind's category (as the corrected classifier gives it). Its displayed count is exactly the count read from the count elements, and its page count is the capped page count of that number: within the 24-per-page bound below 42, and 42 only when the count exceeds 41*24. |
| Page.PriceSelector | TheRightmoveScraper.py:174-177 | Rent and rent-commercial searches read prices from the `span` query. Sale and sale-commercial searches read them from the `div` query. |
| Page.Absolute | TheRightmoveScraper.py:193-194 | Each relative link becomes the site origin followed by that link, in the same order and number. |
| Page.Floorplans | TheRightmoveScraper.py:196-199 | The floorplan column has exactly one entry per listing link in both branches. With the flag set, entry i is the lookup of link i, in input order. Without it, every entry is missing. |
| Page.Pad | TheRightmoveScraper.py:203-208 | Padding to n gives max(n, length) entries. Entry i is the list's i-th entry, or missing past its end. |
| Page.MaxLen | TheRightmoveScraper.py:201 | The common length is at least each of the five list lengths and equal to one of them. |
| Page.AlignedRows | TheRightmoveScraper.py:201-210 | There is one row per index up to the longest of the five lists. Row i holds the i-th entry of every column, or missing past that column's end. |
| Page.DropMissingAddress | TheRightmoveScraper.py:211 | Every surviving row has an address and is a row of the input; every input row with an address survives; there are never more survivors than input rows. |
| Page.DropMissingAddressAppend | TheRightmoveScraper.py:211 | Dropping distributes over concatenation, so survivors keep their relative order. |
| Page.DropMissingAddressOne | TheRightmoveScraper.py:211 | A single row survives exactly when it has an address. |
| Page.DropKeepsAddressedPrefix | TheRightmoveScraper.py:201-211 | When exactly the first k rows carry an address, dropping rows without one leaves exactly those first k rows, in order. |
| Page.GetPage | TheRightmoveScraper.py:166-212 | An empty or missing body gives the empty table with no columns. Otherwise the table has the six listing columns and every row has an address. |
| Page.GetPageRows | TheRightmoveScraper.py:189-211 | A non-empty page has exactly one row per extracted address, in extraction order. Row i holds the i-th price, title, link and agent link, or missing past each list's end. Links are prefixed with the site origin. The floorplan is looked up from the resolved link only when asked for, and is missing otherwise. |
| Aggregate.ToFrame | TheRightmoveScraper.py:202-210 | The aggregates see the page table's columns and rows one for one. The price is read through an explicit text-to-number abstraction, and the address and title are kept. |
| Aggregate.AggregatesOfFetchedPage | TheRightmoveScraper.py:98-121 | About `ToFrame(GetPage(..), readPrice)`, a page table whose prices have already been turned into numbers. For an empty or missing page body (line 169), `average_price` raises for "price" and `summary` raises for its grouping column. For a page with a body, `average_price` succeeds, and `summary` succeeds exactly when its grouping column is one of the six listing columns; the default "number_bedrooms" is not one of them. |
| Aggregate.AveragePrice | TheRightmoveScraper.py:98-104 | A table without a price column raises. A table with no rows gives exactly 0.0. Otherwise the average times the number of all rows equals the sum of the present prices. |
| Aggregate.PriceTotalAppend | TheRightmoveScraper.py:101 | The sum of the present prices of two tables put together is the sum of their sums. |
| Aggregate.AverageWithinPrices | TheRightmoveScraper.py:98-104 | When every row has a price between lo and hi, the average also lies between lo and hi. |
| Aggregate.UnpricedRowDilutes | TheRightmoveScraper.py:101-104 | A row without a price still counts in the denominator. Appending one turns the average a over n rows into a*n/(n+1). |
| Aggregate.DefaultColumn | TheRightmoveScraper.py:113-114 | Without a requested column, commercial searches group by "type" and all others by "number_bedrooms". |
| Aggregate.GroupsAreMatchingRows | TheRightmoveScraper.py:118-119 | Grouping priced rows one at a time makes a key a group exactly when some priced row with that key exists and the key is not missing. Each group counts those rows and sums their prices. |
| Aggregate.MatchingOfPriced | TheRightmoveScraper.py:118 | Dropping unpriced rows before grouping leaves every group's rows unchanged. |
| Aggregate.Summary | TheRightmoveScraper.py:113-121 | A missing grouping column raises with that column's name. With the grouping column present but no price column, it raises for "price". Otherwise it succeeds. A key has a group exactly when some priced row carries it and the key is not missing. Each group's count and price sum are those of its priced rows. |
| Aggregate.SummaryOfThreeTwoBedroomListings | TheRightmoveScraper.py:118-120 | Three two-bedroom listings priced 100, 200 and 300 give one group with count 3, price sum 600 and mean 200. |

## Left out

- The HTTP fetch (`_request`, TheRightmoveScraper.py:36-52) is I/O. Its `(status, body)` pair is an input, with `None` for a failed request.
- HTML parsing and XPath evaluation (lxml) are a foreign library. `Page.GetPage` takes a function from each query to its matches, and `Paging.DisplayedCount` takes the matches of the count query. `html.fromstring` raises on an empty or white-space-only body, and `results_count_display` (line 149) has no guard for that, unlike `_get_page` (line 168). So a status-200 empty first page raises in the source, while `Paging.DisplayedCount([])` gives 0.
- The floorplan fetch (`_fetch_floorplans`, `_get_floorplan_url`, TheRightmoveScraper.py:214-232) is a thread pool plus network fetches. It is a lookup function applied in input order; the pool size of 10 and the logging are not modelled.
- Page.Floorplans: the lookup is a function of the link, so two cards with the same link get the same floorplan. In the source each list entry is fetched separately (line 217), and two fetches of one link could differ.
- `__init__`, `refresh_data` and `_get_results` (TheRightmoveScraper.py:21-34, 54-66) are left out. `_get_results` is called but not defined in the file, so multi-page assembly cannot be modelled. `Query.OpenSearch` covers only the validation part of construction (lines 32-33) together with the `results_count_display` and `page_count` properties. In the source those properties are read lazily, so an unreadable count makes construction fail only if the undefined `_get_results` reads it; the model reports it when the search is opened.
- The regex constants at TheRightmoveScraper.py:13-18 are unused in TheRightmoveScraper.py.
- Aggregate.AveragePrice: prices are optional whole numbers, and the average is an exact `real` rather than a float. The scraper never cleans the price text (`PRICE_CLEAN_PATTERN` is unused), so `Aggregate.ToFrame` takes that conversion as a parameter.
- Aggregate.AggregatesOfFetchedPage: its success half holds only for prices already converted through `readPrice`. On a raw page table the price column holds the extracted strings (lines 190, 203). There `dropna().sum()` at line 101 concatenates them, and the division at line 104 raises TypeError, as does the mean at line 119, whenever some card is priced. Success assumes that the undefined `_get_results` converts the prices.
- Aggregate.Summary: it returns a map from group key to count and price sum, with the mean given by `Aggregate.Mean`. The `astype(int)` cast of the bedroom key and both sort orders (ascending key, or descending count with pandas' tie order) are not modelled.
- Aggregate.Summary: it takes the category as a parameter, as the validated search holds it. The source re-runs `rent_or_sale` on each call. That never raises on a validated URL (`Classification.RentOrSaleAcceptsValidated`), but when the query text carries a path marker it can give a different category from the validated one (see Findings, `Classification.RentOrSaleReadsQuery`); the model uses the validated category throughout.
- Paging.ParseInt: Python's `int()` also accepts underscores between digits, non-ASCII digits and non-ASCII white space. The model reads ASCII digits and ASCII white space only.
- `results_count` and `get_results` are plain accessors. They are the length and the row sequence of `Aggregate.Frame`.

## Findings

| source | as written | input that shows it | evidently intended | confidence | as-written member | corrected member |
|---|---|---|---|---|---|---|
| TheRightmoveScraper.py:135-142 | `rent_or_sale` tests for each path marker anywhere in the URL, the sale markers first. The query string of a validated URL can therefore decide the category. | `https://www.rightmove.co.uk/commercial-property-to-let/find.html?searchType=RENT&from=/property-for-sale/` passes validation as a commercial letting search but is classified "sale". That picks the sale price query and the bedroom default for `summary`. | Classify by the path segment the validator matched. That category agrees with `rent_or_sale` whenever the query text carries no marker. | not executed; medium — needs a query string that carries a path marker | Search.RentOrSale, Classification.CommercialLetReadAsSale | Search.Classify |

=== FILE: aggregate.dfy ===
/** The aggregates over the result table: `average_price` and the grouping
    behind `summary`. Prices are abstracted to optional whole numbers. */
module Aggregate {
  import opened Wrappers
  import opened Strings
  import opened Search
  import opened Classification
  import Page

  /** A value of a non-price column; `Missing` is the missing marker. */
  datatype Value = Missing | Number(n: int) | Text(s: string)

  /** A result row: its price, if any, and its other columns by name. */
  datatype Record = Record(price: Option<int>, fields: map<string, Value>)

  /** The result table: its column names and its rows, in order. */
  datatype Frame = Frame(columns: seq<string>, rows: seq<Record>)

  datatype AggregateError = ColumnNotFound(column: string)   // KeyError / ValueError on a missing column

  /** A page table as the aggregates see it; `readPrice` stands for turning
      the price text into a number, which the scraper's code never does itself. */
  function ToFrame(t: Page.Table, readPrice: string -> Option<int>): (f: Frame)
    ensures f.columns == t.columns && |f.rows| == |t.rows|
    ensures forall i :: 0 <= i < |t.rows| ==>
      && f.rows[i].price == (if t.rows[i].price.Some? then readPrice(t.rows[i].price.value) else None)
      && KeyOf(f.rows[i], "address") == ValueOf(t.rows[i].address)
      && KeyOf(f.rows[i], "type") == ValueOf(t.rows[i].kind)
  {
    Frame(t.columns, RecordsOf(t.rows, readPrice))
  }

  function RecordsOf(rows: seq<Page.Listing>, readPrice: string -> Option<int>): (r: seq<Record>)
    ensures |r| == |rows|
    ensures forall i :: 0 <= i < |rows| ==> r[i] == RecordOf(rows[i], readPrice)
  {
    if |rows| == 0 then [] else [RecordOf(rows[0], readPrice)] + RecordsOf(rows[1..], readPrice)
  }

  function RecordOf(l: Page.Listing, readPrice: string -> Option<int>): Record {
    Record(if l.price.Some? then readPrice(l.price.value) else None,
           map["type" := ValueOf(l.kind), "address" := ValueOf(l.address), "url" := ValueOf(l.url),
               "agent_url" := ValueOf(l.agentUrl), "floorplan_url" := ValueOf(l.floorplanUrl)])
  }

  function ValueOf(c: Page.Cell): Value {
    match c
    case Some(s) => Text(s)
    case None => Missing
  }

  /** Sum of the prices that are present (`dropna().sum()`). */
  function PriceTotal(rows: seq<Record>): int {
    if |rows| == 0 then 0
    else (if rows[0].price.Some? then rows[0].price.value else 0) + PriceTotal(rows[1..])
  }

  lemma {:induction false} PriceTotalAppend(a: seq<Record>, b: seq<Record>)
    ensures PriceTotal(a + b) == PriceTotal(a) + PriceTotal(b)
    decreases |a|
  {
    if |a| == 0 {
      assert a + b == b;
    } else {
      assert (a + b)[1..] == a[1..] + b;
      PriceTotalAppend(a[1..], b);
    }
  }

  /** `average_price`: the sum of the present prices over the number of all
      rows, priced or not; 0.0 on a table without rows. Reading the price
      column of a table that has none raises. */
  function AveragePrice(f: Frame): (r: Result<real, AggregateError>)
    ensures "price" !in f.columns ==> r == Failure(ColumnNotFound("price"))
    ensures "price" in f.columns && |f.rows| == 0 ==> r == Success(0.0)
    ensures "price" in f.columns && |f.rows| > 0 ==>
      r.Success? && r.value * (|f.rows| as real) == PriceTotal(f.rows) as real
  {
    if "price" !in f.columns then Failure(ColumnNotFound("price"))
    else
      var total := PriceTotal(f.rows);
      if |f.rows| == 0 then Success(0.0)
      else Success(total as real / |f.rows| as real)
  }

  /** Every row priced within [lo, hi] puts the total within n * [lo, hi]. */
  lemma {:induction false} PriceTotalBounds(rows: seq<Record>, lo: int, hi: int)
    requires forall i :: 0 <= i < |rows| ==> rows[i].price.Some? && lo <= rows[i].price.value <= hi
    ensures lo * |rows| <= PriceTotal(rows) <= hi * |rows|
    decreases |rows|
  {
    if |rows| > 0 {
      PriceTotalBounds(rows[1..], lo, hi);
    }
  }

  /** When every row is priced, the average lies between the lowest and the
      highest price. */
  lemma AverageWithinPrices(f: Frame, lo: int, hi: int)
    requires "price" in f.columns && |f.rows| > 0
    requires forall i :: 0 <= i < |f.rows| ==>
      f.rows[i].price.Some? && lo <= f.rows[i].price.value <= hi
    ensures AveragePrice(f).Success?
    ensures lo as real <= AveragePrice(f).value <= hi as real
  {
    PriceTotalBounds(f.rows, lo, hi);
    var n := |f.rows|;
    assert (lo * n) as real == lo as real * n as real;
    assert (hi * n) as real == hi as real * n as real;
    QuotientBounds(PriceTotal(f.rows) as real, n as real, lo as real, hi as real);
  }

  lemma QuotientBounds(t: real, n: real, lo: real, hi: real)
    requires n > 0.0 && lo * n <= t <= hi * n
    ensures lo <= t / n <= hi
  {
    assert lo == (lo * n) / n && hi == (hi * n) / n;
    assert (lo * n) / n <= t / n <= (hi * n) / n;
  }

  /** A row without a price still counts in the denominator: appending one
      scales the average by n / (n + 1). */
  lemma UnpricedRowDilutes(f: Frame, x: Record)
    requires "price" in f.columns && |f.rows| > 0 && x.price.None?
    ensures var g := Frame(f.columns, f.rows + [x]);
      AveragePrice(g).value * (|f.rows| + 1) as real == AveragePrice(f).value * |f.rows| as real
  {
    PriceTotalAppend(f.rows, [x]);
    assert PriceTotal([x]) == PriceTotal([x][1..]) + 0;
  }

  // ---- summary ----

  /** `summary`'s default column: "type" when `"commercial" in rent_or_sale`,
      "number_bedrooms" otherwise. */
  function DefaultColumn(c: Category): (col: string)
    ensures col == (if c == SaleCommercial || c == RentCommercial then "type" else "number_bedrooms")
  {
    CommercialNames(c);
    if Contains(CategoryName(c), "commercial") then "type" else "number_bedrooms"
  }

  /** The column `summary` groups by: `by` (here `requested`), unless it is None or empty. */
  function GroupColumn(requested: Option<string>, c: Category): string {
    if requested == None || requested == Some("") then DefaultColumn(c) else requested.value
  }

  /** The value of column `col` in a row (a missing column reads as missing). */
  function KeyOf(row: Record, col: string): Value {
    if col == "price" then (if row.price.Some? then Number(row.price.value) else Missing)
    else if col in row.fields then row.fields[col] else Missing
  }

  /** `dropna(subset=["price"])`. */
  function PricedRows(rows: seq<Record>): (r: seq<Record>)
    ensures forall i :: 0 <= i < |r| ==> r[i].price.Some?
  {
    if |rows| == 0 then []
    else (if rows[0].price.Some? then [rows[0]] else []) + PricedRows(rows[1..])
  }

  /** Reference: the priced rows whose `col` is `k`, in order. */
  function Matching(rows: seq<Record>, col: string, k: Value): seq<Record> {
    if |rows| == 0 then []
    else (if rows[0].price.Some? && KeyOf(rows[0], col) == k then [rows[0]] else [])
         + Matching(rows[1..], col, k)
  }

  /** Count and price sum of one group. */
  datatype Stats = Stats(count: nat, total: int)

  /** The group's mean price. */
  function Mean(s: Stats): real
    requires s.count > 0
  {
    s.total as real / s.count as real
  }

  /** `groupby(col).agg(count, ...)` over priced rows, one row at a time;
      rows whose key is missing belong to no group. */
  function Groups(rows: seq<Record>, col: string): map<Value, Stats>
    requires forall i :: 0 <= i < |rows| ==> rows[i].price.Some?
  {
    if |rows| == 0 then map[]
    else
      var g := Groups(rows[..|rows| - 1], col);
      var x := rows[|rows| - 1];
      var k := KeyOf(x, col);
      if k == Missing then g
      else
        var before := if k in g then g[k] else Stats(0, 0);
        g[k := Stats(before.count + 1, before.total + x.price.value)]
  }

  lemma {:induction false} MatchingAppend(rows: seq<Record>, x: Record, col: string, k: Value)
    ensures Matching(rows + [x], col, k) ==
      Matching(rows, col, k) + (if x.price.Some? && KeyOf(x, col) == k then [x] else [])
    decreases |rows|
  {
    if |rows| == 0 {
      assert rows + [x] == [x];
      assert [x][1..] == [];
    } else {
      assert (rows + [x])[1..] == rows[1..] + [x];
      MatchingAppend(rows[1..], x, col, k);
    }
  }

  /** Each group counts, and sums the prices of, exactly the priced rows
      with its key; a key is a group exactly when some such row exists. */
  lemma {:induction false} GroupsAreMatchingRows(rows: seq<Record>, col: string)
    requires forall i :: 0 <= i < |rows| ==> rows[i].price.Some?
    ensures forall k :: k in Groups(rows, col) <==> k != Missing && |Matching(rows, col, k)| > 0
    ensures forall k :: k in Groups(rows, col) ==>
      Groups(rows, col)[k] == Stats(|Matching(rows, col, k)|, PriceTotal(Matching(rows, col, k)))
    decreases |rows|
  {
    if |rows| > 0 {
      var init := rows[..|rows| - 1];
      var x := rows[|rows| - 1];
      assert rows == init + [x];
      GroupsAreMatchingRows(init, col);
      forall k ensures Matching(rows, col, k) ==
        Matching(init, col, k) + (if KeyOf(x, col) == k then [x] else []) {
        MatchingAppend(init, x, col, k);
      }
      forall k ensures PriceTotal(Matching(rows, col, k)) ==
        PriceTotal(Matching(init, col, k)) + (if KeyOf(x, col) == k then x.price.value else 0) {
        PriceTotalAppend(Matching(init, col, k), if KeyOf(x, col) == k then [x] else []);
        assert PriceTotal([x]) == x.price.value + PriceTotal([x][1..]);
      }
      forall k | k == Missing ensures k !in Groups(init, col) && |Matching(init, col, k)| >= 0 {
      }
    }
  }

  /** Dropping the unpriced rows first does not change any group. */
  lemma {:induction false} MatchingOfPriced(rows: seq<Record>, col: string, k: Value)
    ensures Matching(PricedRows(rows), col, k) == Matching(rows, col, k)
    decreases |rows|
  {
    if |rows| > 0 {
      MatchingOfPriced(rows[1..], col, k);
      var head := if rows[0].price.Some? then [rows[0]] else [];
      MatchingConcat(head, PricedRows(rows[1..]), col, k);
    }
  }

  lemma {:induction false} MatchingConcat(a: seq<Record>, b: seq<Record>, col: string, k: Value)
    ensures Matching(a + b, col, k) == Matching(a, col, k) + Matching(b, col, k)
    decreases |a|
  {
    if |a| == 0 {
      assert a + b == b;
    } else {
      assert (a + b)[1..] == a[1..] + b;
      MatchingConcat(a[1..], b, col, k);
    }
  }

  /** `summary`: choose the column, raise when the table lacks it (or lacks
      the price column that `dropna` names), drop the unpriced rows, then count and sum each group. The result is keyed by
      group; sort order is not modelled. */
  function Summary(f: Frame, requested: Option<string>, c: Category): (r: Result<map<Value, Stats>, AggregateError>)
    ensures GroupColumn(requested, c) !in f.columns ==> r == Failure(ColumnNotFound(GroupColumn(requested, c)))
    ensures GroupColumn(requested, c) in f.columns && "price" !in f.columns ==>
      r == Failure(ColumnNotFound("price"))
    ensures r.Success? <==> GroupColumn(requested, c) in f.columns && "price" in f.columns
    ensures r.Success? ==> forall k ::
      k in r.value <==> k != Missing && |Matching(f.rows, GroupColumn(requested, c), k)| > 0
    ensures r.Success? ==> forall k :: k in r.value ==>
      && r.value[k].count == |Matching(f.rows, GroupColumn(requested, c), k)|
      && r.value[k].total == PriceTotal(Matching(f.rows, GroupColumn(requested, c), k))
  {
    var col := GroupColumn(requested, c);
    if col !in f.columns then Failure(ColumnNotFound(col))
    else if "price" !in f.columns then Failure(ColumnNotFound("price"))
    else
      var priced := PricedRows(f.rows);
      GroupsAreMatchingRows(priced, col);
      forall k ensures Matching(priced, col, k) == Matching(f.rows, col, k) {
        MatchingOfPriced(f.rows, col, k);
      }
      Success(Groups(priced, col))
  }

  /** Three two-bedroom listings priced 100, 200 and 300 form one group of
      three with mean price 200. */
  lemma SummaryOfThreeTwoBedroomListings()
    ensures var f := Frame(["price", "number_bedrooms"], TwoBedroomRows());
      && Summary(f, None, Sale) == Success(map[Number(2) := Stats(3, 600)])
      && Mean(Stats(3, 600)) == 200.0
  {
    var rows := TwoBedroomRows();
    var f := Frame(["price", "number_bedrooms"], rows);
    var r := Summary(f, None, Sale);
    assert GroupColumn(None, Sale) == "number_bedrooms";
    forall k ensures Matching(rows, "number_bedrooms", k) == if k == Number(2) then rows else [] {
      TwoBedroomMatching(k);
    }
    assert PriceTotal(rows) == 600 by {
      TwoBedroomTotal();
    }
    assert r.Success?;
    assert |rows| == 3;
    assert r.value.Keys == {Number(2)};
    assert r.value[Number(2)] == Stats(3, 600);
    assert r.value == map[Number(2) := Stats(3, 600)];
  }

  function TwoBedroomRows(): seq<Record> {
    var beds := map["number_bedrooms" := Number(2)];
    [Record(Some(100), beds), Record(Some(200), beds), Record(Some(300), beds)]
  }

  lemma TwoBedroomMatching(k: Value)
    ensures Matching(TwoBedroomRows(), "number_bedrooms", k) == if k == Number(2) then TwoBedroomRows() else []
  {
    var rows := TwoBedroomRows();
    var hit := k == Number(2);
    assert rows[1..][1..][1..] == [];
    assert Matching(rows[2..], "number_bedrooms", k) == if hit then rows[2..] else [];
    assert rows[1..][1..] == rows[2..];
    assert Matching(rows[1..], "number_bedrooms", k) == if hit then rows[1..] else [];
  }

  lemma TwoBedroomTotal()
    ensures PriceTotal(TwoBedroomRows()) == 600
  {
    var rows := TwoBedroomRows();
    assert rows[1..][1..][1..] == [];
  }

  /** The aggregates over one fetched page whose price text has been turned
      into numbers by `readPrice`. An empty or missing body gives
      the column-less table, on which `average_price` raises for "price" and
      `summary` raises for its grouping column. A page with a body has the
      six listing columns, so `average_price` succeeds and `summary`
      succeeds exactly when its grouping column is one of them (the default
      "number_bedrooms" is not). */
  lemma AggregatesOfFetchedPage(body: Option<string>, category: Category, query: Page.Selector -> seq<string>,
                                getFloorplans: bool, lookup: string -> Page.Cell,
                                readPrice: string -> Option<int>, requested: Option<string>)
    ensures var f := ToFrame(Page.GetPage(body, category, query, getFloorplans, lookup), readPrice);
      && (body == None || body == Some("") ==>
            && AveragePrice(f) == Failure(ColumnNotFound("price"))
            && Summary(f, requested, category) == Failure(ColumnNotFound(GroupColumn(requested, category))))
      && (body != None && body != Some("") ==>
            && AveragePrice(f).Success?
            && (Summary(f, requested, category).Success? <==> GroupColumn(requested, category) in Page.ListingColumns))
  {
    var t := Page.GetPage(body, category, query, getFloorplans, lookup);
    assert "price" in Page.ListingColumns;
    assert body == None || body == Some("") ==> t.columns == [];
  }
}

=== FILE: classification.dfy ===
/** What the substring tests of `rent_or_sale` find inside URLs the validator
    accepts, and the substring tests the scraper makes on category names. */
module Classification {
  import opened Wrappers
  import opened Strings
  import opened Search

  /** The character after the leading "/" of a marker is never "/", "w" or "f". */
  lemma MarkerSecondChar(h: Segment)
    ensures |Marker(h)| >= 2 && Marker(h)[0] == '/'
    ensures Marker(h)[1] != '/' && Marker(h)[1] != 'w' && Marker(h)[1] != 'f'
  {
  }

  /** Inside a URL that matches the pattern for `g`, the marker of `h` occurs
      exactly when `h` is `g` or the marker occurs in the text after the
      pattern. The fixed part of the URL holds no other marker; in particular
      "/property-for-sale/" is not found inside "/commercial-property-for-sale/". */
  lemma MarkerInSearchUrl(b: bool, g: Segment, tail: string, h: Segment)
    ensures Contains(Pattern(b, g) + tail, Marker(h)) <==> h == g || Contains(tail, Marker(h))
  {
    var m := Marker(h);
    MarkerSecondChar(h);
    SchemeAndHost(b, SegmentName(g), tail, m);
    SegmentAndPage(SegmentName(g), tail, m);
    SegmentLinesUp(g, h, Find + tail);
  }

  /** The scheme and the host hold no "/" that can start a marker. */
  lemma SchemeAndHost(b: bool, name: string, tail: string, m: string)
    requires |m| >= 2 && m[0] == '/' && m[1] != '/' && m[1] != 'w'
    ensures var after := Host + (name + Find);
      Contains("http" + (if b then "s" + after else after) + tail, m) <==>
      Contains("/" + name + (Find + tail), m)
  {
    var after := Host + (name + Find);
    var rest := after + tail;
    assert "http" + (if b then "s" + after else after) + tail
      == "http" + (if b then "s" + rest else rest);
    SchemeSkip(b, rest, m);
    assert rest == Host + name + (Find + tail);
    HostSkip(name, Find + tail, m);
  }

  /** "http" and the optional "s" hold no "/". */
  lemma SchemeSkip(b: bool, rest: string, m: string)
    requires |m| > 0 && m[0] == '/'
    ensures Contains("http" + (if b then "s" + rest else rest), m) <==> Contains(rest, m)
  {
    SkipFree("http", if b then "s" + rest else rest, m);
    if b {
      SkipFree("s", rest, m);
    }
  }

  /** Within the host, "//" and "/w" cannot start a marker and the host name
      holds no "/". */
  lemma HostSkip(x: string, t: string, m: string)
    requires |m| >= 2 && m[0] == '/' && m[1] != '/' && m[1] != 'w'
    ensures Contains(Host + x + t, m) <==> Contains("/" + x + t, m)
  {
    var v := "/" + x + t;
    var w := "www.rightmove.co.uk" + v;
    HostShape(x, t);
    SkipFree(":", "/" + ("/" + w), m);
    SkipMismatch('/', "/" + w, m);
    SkipMismatch('/', w, m);
    SkipFree("www.rightmove.co.uk", v, m);
  }

  /** The host, split at its slashes. */
  lemma HostShape(x: string, t: string)
    ensures Host + x + t == ":" + ("/" + ("/" + ("www.rightmove.co.uk" + ("/" + x + t))))
  {
    assert Host == ":" + ("/" + ("/" + ("www.rightmove.co.uk" + "/")));
  }

  /** Past the "/" before the segment, only the text after the pattern can
      hold a marker: the segment has no "/" and the next "/" is followed by "f". */
  lemma SegmentAndPage(name: string, tail: string, m: string)
    requires '/' !in name
    requires |m| >= 2 && m[0] == '/' && m[1] != 'f'
    ensures Contains("/" + name + (Find + tail), m) <==>
      StartsWith("/" + name + (Find + tail), m) || Contains(tail, m)
  {
    var v := "/" + name + (Find + tail);
    assert v[1..] == name + (Find + tail);
    SkipFree(name, Find + tail, m);
    assert Find + tail == ['/'] + ("find.html?" + tail);
    SkipMismatch('/', "find.html?" + tail, m);
    SkipFree("find.html?", tail, m);
  }

  /** At the "/" before the segment, the marker of `h` lines up only with
      its own segment. */
  lemma SegmentLinesUp(g: Segment, h: Segment, rest: string)
    requires |rest| > 0 && rest[0] == '/'
    ensures StartsWith("/" + SegmentName(g) + rest, Marker(h)) <==> h == g
  {
    NamesSlashFree(g);
    NamesSlashFree(h);
    NameLinesUp(SegmentName(h), SegmentName(g), rest);
    if h != g {
      NamesDistinct(g, h);
    }
  }

  /** "/" + `x` + "/" lines up with "/" + `y` followed by a "/" exactly when
      the slash-free names are equal. */
  lemma NameLinesUp(x: string, y: string, rest: string)
    requires '/' !in x && '/' !in y
    requires |rest| > 0 && rest[0] == '/'
    ensures StartsWith("/" + y + rest, "/" + x + "/") <==> x == y
  {
    var v := "/" + y + rest;
    assert v[1..] == y + rest;
    assert "/" + x + "/" == "/" + (x + "/");
    PrefixSplit(v, "/", x + "/");
    PrefixSplit(y + rest, y, "/");
    assert rest[..1] == "/";
    SlashTerminated(x, y, v[1..]);
  }

  /** A prefix splits its string. */
  lemma SplitAtPrefix(s: string, p: string)
    requires StartsWith(s, p)
    ensures s == p + s[|p|..]
  {
    assert s == s[..|p|] + s[|p|..];
  }

  /** A URL the validator accepts is one of the patterns followed by
      arbitrary text. */
  lemma AcceptedShape(url: string, g: Segment) returns (b: bool, tail: string)
    requires IsSearchUrl(url, g)
    ensures url == Pattern(b, g) + tail
  {
    b := StartsWith(url, Pattern(true, g));
    SplitAtPrefix(url, Pattern(b, g));
    tail := url[|Pattern(b, g)|..];
  }

  /** `rent_or_sale` never fails on a URL that passed validation: the URL
      carries the marker of its own segment. */
  lemma RentOrSaleAcceptsValidated(status: Option<int>, url: string)
    requires ValidateUrl(status, url).Success?
    ensures RentOrSale(url).Success?
  {
    var g := ValidateUrl(status, url).value;
    var b, tail := AcceptedShape(url, g);
    MarkerInSearchUrl(b, g, tail, g);
  }

  /** No marker of any search kind occurs in `s`. */
  predicate MarkerFree(s: string) {
    forall h :: !Contains(s, Marker(h))
  }

  /** When the text after the pattern carries no path marker, `rent_or_sale`
      yields the category of the validated segment, so it agrees with the
      classification from the path; in particular a commercial-for-sale URL
      is then never read as plain "sale". */
  lemma RentOrSaleOnMarkerFreeQuery(b: bool, g: Segment, tail: string)
    requires MarkerFree(tail)
    ensures RentOrSale(Pattern(b, g) + tail) == Success(CategoryOf(g))
    ensures RentOrSale(Pattern(b, g) + tail) == Classify(Pattern(b, g) + tail)
  {
    var url := Pattern(b, g) + tail;
    forall h ensures Contains(url, Marker(h)) <==> h == g {
      MarkerInSearchUrl(b, g, tail, h);
    }
    assert IsSearchUrl(url, g) by {
      SplitAtPrefix(url, Pattern(b, g));
    }
  }

  /** As written, `rent_or_sale` reads the sale marker anywhere in the URL:
      a validated URL of any kind whose query text mentions
      "/property-for-sale/" is classified as "sale". */
  lemma RentOrSaleReadsQuery(b: bool, g: Segment, tail: string)
    requires Contains(tail, Marker(PropertyForSale))
    ensures ValidateUrl(Some(200), Pattern(b, g) + tail) == Success(g)
    ensures RentOrSale(Pattern(b, g) + tail) == Success(Sale)
    ensures Classify(Pattern(b, g) + tail) == Success(CategoryOf(g))
  {
    var url := Pattern(b, g) + tail;
    MarkerInSearchUrl(b, g, tail, PropertyForSale);
    assert IsSearchUrl(url, g) by {
      assert url[..|Pattern(b, g)|] == Pattern(b, g);
    }
    FirstMatchIsTheMatch(url, g);
  }

  /** A concrete commercial letting search that `rent_or_sale` reports as a
      residential sale. */
  lemma CommercialLetReadAsSale()
    ensures var url := Pattern(true, CommercialToLet) + "searchType=RENT&from=/property-for-sale/";
      && ValidateUrl(Some(200), url) == Success(CommercialToLet)
      && Classify(url) == Success(RentCommercial)
      && RentOrSale(url) == Success(Sale)
  {
    var tail := "searchType=RENT&from=/property-for-sale/";
    assert tail == "searchType=RENT&from=" + Marker(PropertyForSale) + "";
    ContainsMiddle("searchType=RENT&from=", Marker(PropertyForSale), "");
    RentOrSaleReadsQuery(true, CommercialToLet, tail);
  }

  /** `"commercial" in rent_or_sale` holds for the two commercial categories
      and no other. */
  lemma {:induction false} CommercialNames(c: Category)
    ensures Contains(CategoryName(c), "commercial") <==> c == SaleCommercial || c == RentCommercial
  {
    match c
    case Sale => TooLong("sale", "commercial");
    case Rent => TooLong("rent", "commercial");
    case SaleCommercial =>
      assert "sale-commercial" == "sale-" + "commercial" + "";
      ContainsMiddle("sale-", "commercial", "");
    case RentCommercial =>
      assert "rent-commercial" == "rent-" + "commercial" + "";
      ContainsMiddle("rent-", "commercial", "");
  }

  /** `"rent" in rent_or_sale` holds for the two letting categories and no
      other. */
  lemma {:induction false} RentNames(c: Category)
    ensures Contains(CategoryName(c), "rent") <==> c == Rent || c == RentCommercial
  {
    match c
    case Sale =>
      assert "sale" == "sale" + "";
      SkipFree("sale", "", "rent");
      TooLong("", "rent");
    case Rent =>
      assert "rent" == "" + "rent" + "";
      ContainsMiddle("", "rent", "");
    case SaleCommercial =>
      assert "sale-commercial" == "sale-comme" + ("r" + "cial");
      SkipFree("sale-comme", "r" + "cial", "rent");
      SkipMismatch('r', "cial", "rent");
      assert "cial" == "cial" + "";
      SkipFree("cial", "", "rent");
      TooLong("", "rent");
    case RentCommercial =>
      assert "rent-commercial" == "" + "rent" + "-commercial";
      ContainsMiddle("", "rent", "-commercial");
  }
}

=== FILE: page.dfy ===
/** One page of search results (`_get_page`): the field lists the structural
    queries extract are resolved, padded to a common length with the missing
    marker, zipped into rows, and rows without an address are dropped. */
module Page {
  import opened Wrappers
  import opened Strings
  import opened Search
  import opened Classification

  /** The structural queries `_get_page` evaluates; the price lives in a
      `span` on letting pages and in a `div` on sale pages. */
  datatype Selector = SpanPrices | DivPrices | Titles | Addresses | ListingLinks | AgentLinks

  /** A table cell: `None` is the missing marker (NaN in the source). */
  type Cell = Option<string>

  /** One property card, one column per field. */
  datatype Listing = Listing(price: Cell, kind: Cell, address: Cell, url: Cell, agentUrl: Cell, floorplanUrl: Cell)

  /** A table: its column names and its rows. */
  datatype Table = Table(columns: seq<string>, rows: seq<Listing>)

  /** The columns of a page table, in order. */
  const ListingColumns: seq<string> := ["price", "type", "address", "url", "agent_url", "floorplan_url"]

  /** The site origin that relative links are resolved against. */
  const Base := "https://www.rightmove.co.uk"

  /** Which price query a search of category `c` uses: `"rent" in rent_or_sale`. */
  function PriceSelector(c: Category): (s: Selector)
    ensures s == SpanPrices <==> c == Rent || c == RentCommercial
    ensures s == DivPrices <==> c == Sale || c == SaleCommercial
  {
    RentNames(c);
    if Contains(CategoryName(c), "rent") then SpanPrices else DivPrices
  }

  /** `[f"{base}{link}" for link in links]`. */
  function Absolute(links: seq<string>): (r: seq<string>)
    ensures |r| == |links|
    ensures forall i :: 0 <= i < |links| ==> r[i] == Base + links[i]
  {
    if |links| == 0 then [] else [Base + links[0]] + Absolute(links[1..])
  }

  /** Extracted text as cells; extracted values are never missing. */
  function Present(xs: seq<string>): (r: seq<Cell>)
    ensures |r| == |xs|
    ensures forall i :: 0 <= i < |xs| ==> r[i] == Some(xs[i])
  {
    if |xs| == 0 then [] else [Some(xs[0])] + Present(xs[1..])
  }

  /** The floorplan column before padding. With the flag set, each listing
      link is looked up in order (`executor.map` keeps input order; the
      lookup stands for `_get_floorplan_url`, which turns every failure into
      the missing marker); otherwise every entry is missing. */
  function Floorplans(getFloorplans: bool, weblinks: seq<string>, lookup: string -> Cell): (r: seq<Cell>)
    ensures |r| == |weblinks|
    ensures !getFloorplans ==> forall i :: 0 <= i < |r| ==> r[i] == None
    ensures getFloorplans ==> forall i :: 0 <= i < |r| ==> r[i] == lookup(weblinks[i])
  {
    if |weblinks| == 0 then []
    else [if getFloorplans then lookup(weblinks[0]) else None] + Floorplans(getFloorplans, weblinks[1..], lookup)
  }

  /** The `i`-th entry of a column, or missing past its end. */
  function At(xs: seq<Cell>, i: nat): Cell {
    if i < |xs| then xs[i] else None
  }

  /** `xs + [nan] * (n - len(xs))`: a negative repeat count adds nothing. */
  function Pad(xs: seq<Cell>, n: int): (r: seq<Cell>)
    ensures |r| == if n > |xs| then n else |xs|
    ensures forall i :: 0 <= i < |r| ==> r[i] == At(xs, i)
    decreases n - |xs|
  {
    if n <= |xs| then xs else Pad(xs + [None], n)
  }

  function Max(a: int, b: int): int {
    if a >= b then a else b
  }

  /** `max(len(prices), len(titles), len(addresses), len(weblinks), len(agent_urls))`. */
  function MaxLen(prices: seq<Cell>, titles: seq<Cell>, addresses: seq<Cell>, links: seq<Cell>, agents: seq<Cell>): (n: nat)
    ensures |prices| <= n && |titles| <= n && |addresses| <= n && |links| <= n && |agents| <= n
    ensures n == |prices| || n == |titles| || n == |addresses| || n == |links| || n == |agents|
  {
    Max(Max(Max(Max(|prices|, |titles|), |addresses|), |links|), |agents|)
  }

  /** Zips six columns of equal length into rows. */
  function Zip(p: seq<Cell>, t: seq<Cell>, a: seq<Cell>, u: seq<Cell>, g: seq<Cell>, f: seq<Cell>): (rows: seq<Listing>)
    requires |t| == |p| && |a| == |p| && |u| == |p| && |g| == |p| && |f| == |p|
    ensures |rows| == |p|
    ensures forall i :: 0 <= i < |p| ==> rows[i] == Listing(p[i], t[i], a[i], u[i], g[i], f[i])
  {
    if |p| == 0 then []
    else [Listing(p[0], t[0], a[0], u[0], g[0], f[0])] + Zip(p[1..], t[1..], a[1..], u[1..], g[1..], f[1..])
  }

  /** Every column padded to the longest of the five extracted lists, then
      zipped: row `i` holds the `i`-th entry of each list, or missing past
      that list's end. The floorplan column is as long as the link column,
      so it is never the longest. */
  function AlignedRows(prices: seq<Cell>, titles: seq<Cell>, addresses: seq<Cell>,
                       links: seq<Cell>, agents: seq<Cell>, floorplans: seq<Cell>): (rows: seq<Listing>)
    requires |floorplans| == |links|
    ensures |rows| == MaxLen(prices, titles, addresses, links, agents)
    ensures forall i :: 0 <= i < |rows| ==>
      rows[i] == Listing(At(prices, i), At(titles, i), At(addresses, i), At(links, i), At(agents, i), At(floorplans, i))
  {
    var n := MaxLen(prices, titles, addresses, links, agents);
    Zip(Pad(prices, n), Pad(titles, n), Pad(addresses, n), Pad(links, n), Pad(agents, n), Pad(floorplans, n))
  }

  /** `df.dropna(subset=["address"])`: keeps the rows with an address, in order. */
  function DropMissingAddress(rows: seq<Listing>): (r: seq<Listing>)
    ensures forall i :: 0 <= i < |r| ==> r[i].address.Some?
    ensures forall x :: x in r ==> x in rows
    ensures forall i :: 0 <= i < |rows| && rows[i].address.Some? ==> rows[i] in r
    ensures |r| <= |rows|
  {
    if |rows| == 0 then []
    else (if rows[0].address.Some? then [rows[0]] else []) + DropMissingAddress(rows[1..])
  }

  /** Dropping distributes over concatenation, so the surviving rows keep
      their relative order. */
  lemma {:induction false} DropMissingAddressAppend(a: seq<Listing>, b: seq<Listing>)
    ensures DropMissingAddress(a + b) == DropMissingAddress(a) + DropMissingAddress(b)
    decreases |a|
  {
    if |a| == 0 {
      assert a + b == b;
    } else {
      assert (a + b)[1..] == a[1..] + b;
      DropMissingAddressAppend(a[1..], b);
    }
  }

  /** Exactly the addressed rows survive: a row with an address is kept and
      a row without one is dropped. */
  lemma DropMissingAddressOne(x: Listing)
    ensures DropMissingAddress([x]) == (if x.address.Some? then [x] else [])
  {
    assert [x][1..] == [];
  }

  /** When exactly the first `k` rows carry an address, dropping the rows
      without one keeps exactly those first `k` rows. */
  lemma {:induction false} DropKeepsAddressedPrefix(rows: seq<Listing>, k: nat)
    requires k <= |rows|
    requires forall i :: 0 <= i < |rows| ==> (rows[i].address.Some? <==> i < k)
    ensures DropMissingAddress(rows) == rows[..k]
    decreases |rows|
  {
    if |rows| > 0 {
      var tail := rows[1..];
      if k == 0 {
        assert !rows[0].address.Some?;
        DropKeepsAddressedPrefix(tail, 0);
      } else {
        assert rows[0].address.Some?;
        DropKeepsAddressedPrefix(tail, k - 1);
        assert rows[..k] == [rows[0]] + tail[..k - 1];
      }
    }
  }

  /** `_get_page`: an empty or missing body gives the column-less empty
      table; otherwise the aligned rows that have an address. `query`
      stands for the structural queries evaluated on the parsed body, and
      `lookup` for the per-listing floorplan fetch. */
  function GetPage(body: Option<string>, category: Category, query: Selector -> seq<string>,
                   getFloorplans: bool, lookup: string -> Cell): (t: Table)
    ensures body == None || body == Some("") ==> t == Table([], [])
    ensures body != None && body != Some("") ==> t.columns == ListingColumns
    ensures forall i :: 0 <= i < |t.rows| ==> t.rows[i].address.Some?
  {
    if body == None || body == Some("") then Table([], [])
    else
      var weblinks := Absolute(query(ListingLinks));
      var agentUrls := Absolute(query(AgentLinks));
      var rows := AlignedRows(Present(query(PriceSelector(category))), Present(query(Titles)),
                              Present(query(Addresses)), Present(weblinks), Present(agentUrls),
                              Floorplans(getFloorplans, weblinks, lookup));
      Table(ListingColumns, DropMissingAddress(rows))
  }

  /** The rows of a non-empty page: one per extracted address, in extraction
      order, row `i` holding the `i`-th extracted value of every field (or
      missing past a shorter list), links resolved against the site origin,
      and the floorplan looked up from the resolved link only when asked. */
  lemma GetPageRows(body: Option<string>, category: Category, query: Selector -> seq<string>,
                    getFloorplans: bool, lookup: string -> Cell)
    requires body != None && body != Some("")
    ensures var t := GetPage(body, category, query, getFloorplans, lookup);
      var prices := query(PriceSelector(category));
      var titles := query(Titles);
      var addresses := query(Addresses);
      var links := query(ListingLinks);
      var agents := query(AgentLinks);
      && |t.rows| == |addresses|
      && forall i :: 0 <= i < |addresses| ==>
        && t.rows[i].address == Some(addresses[i])
        && t.rows[i].price == (if i < |prices| then Some(prices[i]) else None)
        && t.rows[i].kind == (if i < |titles| then Some(titles[i]) else None)
        && t.rows[i].url == (if i < |links| then Some(Base + links[i]) else None)
        && t.rows[i].agentUrl == (if i < |agents| then Some(Base + agents[i]) else None)
        && t.rows[i].floorplanUrl ==
             (if i < |links| && getFloorplans then lookup(Base + links[i]) else None)
  {
    var weblinks := Absolute(query(ListingLinks));
    var agentUrls := Absolute(query(AgentLinks));
    var floorplans := Floorplans(getFloorplans, weblinks, lookup);
    DropAligned(Present(query(PriceSelector(category))), Present(query(Titles)),
                Present(query(Addresses)), Present(weblinks), Present(agentUrls), floorplans);
  }

  /** Aligning the columns and dropping the unaddressed rows leaves one row
      per address, row `i` holding the `i`-th entry of every column. */
  lemma DropAligned(prices: seq<Cell>, titles: seq<Cell>, addresses: seq<Cell>,
                    links: seq<Cell>, agents: seq<Cell>, floorplans: seq<Cell>)
    requires |floorplans| == |links|
    requires forall i :: 0 <= i < |addresses| ==> addresses[i].Some?
    ensures var r := DropMissingAddress(AlignedRows(prices, titles, addresses, links, agents, floorplans));
      && |r| == |addresses|
      && forall i :: 0 <= i < |addresses| ==>
           r[i] == Listing(At(prices, i), At(titles, i), addresses[i], At(links, i), At(agents, i), At(floorplans, i))
  {
    var rows := AlignedRows(prices, titles, addresses, links, agents, floorplans);
    DropKeepsAddressedPrefix(rows, |addresses|);
  }
}

=== FILE: paging.dfy ===
/** The displayed result count (`results_count_display`) and the number of
    result pages derived from it (`page_count`). */
module Paging {
  import opened Wrappers

  /** Listings the site shows per results page. */
  const PerPage := 24
  /** The site serves no more than this many result pages. */
  const MaxPages := 42

  datatype CountError = NotAnInteger(text: string)   // Python's int() raised ValueError

  /** `text.replace(",", "")`. */
  function RemoveCommas(s: string): (r: string)
    ensures ',' !in r
    ensures |r| <= |s|
  {
    if |s| == 0 then ""
    else (if s[0] == ',' then "" else [s[0]]) + RemoveCommas(s[1..])
  }

  lemma {:induction false} RemoveCommasAppend(a: string, b: string)
    ensures RemoveCommas(a + b) == RemoveCommas(a) + RemoveCommas(b)
    decreases |a|
  {
    if |a| == 0 {
      assert a + b == b;
    } else {
      assert (a + b)[1..] == a[1..] + b;
      RemoveCommasAppend(a[1..], b);
    }
  }

  /** Characters Python's int() strips from both ends (the ASCII ones). */
  predicate IsSpace(c: char) {
    c == ' ' || c == '\t' || c == '\n' || c == '\r' || c == '\U{B}' || c == '\U{C}'
  }

  predicate IsDigit(c: char) {
    '0' <= c <= '9'
  }

  /** A non-empty run of decimal digits. */
  predicate IsDigits(d: string) {
    |d| > 0 && forall i :: 0 <= i < |d| ==> IsDigit(d[i])
  }

  predicate AllSpace(s: string) {
    forall i :: 0 <= i < |s| ==> IsSpace(s[i])
  }

  function StripLeft(s: string): string
    decreases |s|
  {
    if |s| > 0 && IsSpace(s[0]) then StripLeft(s[1..]) else s
  }

  function StripRight(s: string): string
    decreases |s|
  {
    if |s| > 0 && IsSpace(s[|s| - 1]) then StripRight(s[..|s| - 1]) else s
  }

  function Strip(s: string): string {
    StripRight(StripLeft(s))
  }

  /** The value of a run of decimal digits, most significant first. */
  function DigitsValue(d: string): nat
    requires forall i :: 0 <= i < |d| ==> IsDigit(d[i])
    decreases |d|
  {
    if |d| == 0 then 0
    else
      assert IsDigit(d[|d| - 1]);
      DigitsValue(d[..|d| - 1]) * 10 + (d[|d| - 1] as int - '0' as int)
  }

  /** Python's `int(text)` on a decimal string: surrounding white space, an
      optional sign, then at least one digit. */
  function ParseInt(s: string): Option<int> {
    var t := Strip(s);
    if |t| > 0 && (t[0] == '+' || t[0] == '-') then
      if IsDigits(t[1..]) then
        var magnitude: int := DigitsValue(t[1..]);
        Some(if t[0] == '-' then -magnitude else magnitude)
      else None
    else if IsDigits(t) then Some(DigitsValue(t))
    else None
  }

  /** `results_count_display`: the text of the first count element with its
      commas removed and read as an integer, or 0 when the page has no count
      element. `matches` are the count elements found, in document order. */
  function DisplayedCount(matches: seq<string>): (r: Result<int, CountError>)
    ensures |matches| == 0 ==> r == Success(0)
    ensures |matches| > 0 && r.Success? ==> ParseInt(RemoveCommas(matches[0])) == Some(r.value)
    ensures |matches| > 0 && r.Failure? ==> ParseInt(RemoveCommas(matches[0])).None?
  {
    if |matches| == 0 then Success(0)
    else
      match ParseInt(RemoveCommas(matches[0]))
      case Some(n) => Success(n)
      case None => Failure(NotAnInteger(RemoveCommas(matches[0])))
  }

  /** `page_count`: whole pages needed for `n` listings at 24 a page, at most
      42. Python's `//` and `%` floor, which for the positive divisor 24 is
      what Dafny's `/` and `%` do, so negative counts are covered too. */
  function PageCount(n: int): (r: int)
    ensures r <= MaxPages
    ensures r < MaxPages ==> (r - 1) * PerPage < n <= r * PerPage
    ensures r == MaxPages ==> n > (MaxPages - 1) * PerPage
    ensures n >= 0 ==> r >= 0
  {
    var pages := n / PerPage;
    var pages' := if n % PerPage > 0 then pages + 1 else pages;
    if pages' <= MaxPages then pages' else MaxPages
  }

  /** Pages implied by the first results page: its displayed count turned
      into a page count; a count that does not parse is an error. */
  function PagesOfFirstPage(matches: seq<string>): (r: Result<int, CountError>)
    ensures r.Success? ==> r.value <= MaxPages && (0 <= r.value || |matches| > 0)
    ensures |matches| == 0 ==> r == Success(0)
    ensures r.Success? <==> DisplayedCount(matches).Success?
    ensures r.Success? ==> r.value == PageCount(DisplayedCount(matches).value)
    ensures r.Failure? ==> r == Failure(DisplayedCount(matches).error)
  {
    match DisplayedCount(matches)
    case Success(n) => Success(PageCount(n))
    case Failure(e) => Failure(e)
  }

  /** The ceiling of n / 24 capped at 42, as an independent reference. */
  lemma PageCountIsCappedCeiling(n: int, c: int)
    requires (c - 1) * PerPage < n <= c * PerPage
    ensures PageCount(n) == if c < MaxPages then c else MaxPages
  {
  }

  lemma PageCountExamples()
    ensures PageCount(0) == 0 && PageCount(24) == 1 && PageCount(25) == 2 && PageCount(2000) == 42
  {
  }

  /** More listings never mean fewer pages. */
  lemma PageCountMonotone(m: int, n: int)
    requires m <= n
    ensures PageCount(m) <= PageCount(n)
  {
  }

  // ---- The site's display of a count, and reading it back ----

  function DigitChar(k: nat): (c: char)
    requires k < 10
    ensures IsDigit(c) && c as int - '0' as int == k
  {
    ('0' as int + k) as char
  }

  /** `n` in decimal without separators. */
  function Decimal(n: nat): (d: string)
    ensures IsDigits(d)
  {
    if n < 10 then [DigitChar(n)] else Decimal(n / 10) + [DigitChar(n % 10)]
  }

  /** `k` in exactly three digits, with leading zeros. */
  function Pad3(k: nat): (d: string)
    requires k < 1000
    ensures IsDigits(d) && |d| == 3
  {
    [DigitChar(k / 100), DigitChar(k / 10 % 10), DigitChar(k % 10)]
  }

  /** `n` as the site displays it: groups of three digits separated by
      commas, e.g. "12,345". */
  function Thousands(n: nat): string {
    if n < 1000 then Decimal(n) else Thousands(n / 1000) + "," + Pad3(n % 1000)
  }

  function Pow10(k: nat): nat {
    if k == 0 then 1 else 10 * Pow10(k - 1)
  }

  lemma {:induction false} DecimalValue(n: nat)
    ensures DigitsValue(Decimal(n)) == n
  {
    if n >= 10 {
      var d := Decimal(n);
      assert d[..|d| - 1] == Decimal(n / 10);
      DecimalValue(n / 10);
    }
  }

  lemma Pad3Value(k: nat)
    requires k < 1000
    ensures DigitsValue(Pad3(k)) == k
  {
    var d := Pad3(k);
    var a, b, c := k / 100, k / 10 % 10, k % 10;
    assert d[..1][..0] == [];
    assert DigitsValue(d[..1]) == a;
    assert d[..2][..1] == d[..1];
    assert DigitsValue(d[..2]) == a * 10 + b;
    assert d[..3][..2] == d[..2] && d[..3] == d;
    assert DigitsValue(d) == (a * 10 + b) * 10 + c;
    assert k == a * 100 + (k % 100) && k % 100 == b * 10 + c;
  }

  /** Reading digits is positional: the digits on the left weigh a power of
      ten per digit on the right. */
  lemma {:induction false} DigitsValueAppend(a: string, b: string)
    requires IsDigits(a) && IsDigits(b)
    ensures IsDigits(a + b)
    ensures DigitsValue(a + b) == DigitsValue(a) * Pow10(|b|) + DigitsValue(b)
    decreases |b|
  {
    var ab := a + b;
    var init := b[..|b| - 1];
    var last := b[|b| - 1] as int - '0' as int;
    assert ab[..|ab| - 1] == a + init;
    assert ab[|ab| - 1] == b[|b| - 1];
    assert DigitsValue(ab) == DigitsValue(a + init) * 10 + last;
    assert DigitsValue(b) == DigitsValue(init) * 10 + last;
    if |b| == 1 {
      assert a + init == a;
      assert init == [];
      assert Pow10(1) == 10;
    } else {
      DigitsValueAppend(a, init);
      assert Pow10(|b|) == 10 * Pow10(|init|);
      ShiftOneDigit(DigitsValue(a), Pow10(|init|), DigitsValue(init), last);
    }
  }

  lemma ShiftOneDigit(hi: int, scale: int, lo: int, digit: int)
    ensures (hi * scale + lo) * 10 + digit == hi * (10 * scale) + (lo * 10 + digit)
  {
  }

  lemma {:induction false} RemoveCommasNoComma(s: string)
    requires ',' !in s
    ensures RemoveCommas(s) == s
    decreases |s|
  {
    if |s| > 0 {
      assert s[0] in s;
      assert forall c :: c in s[1..] ==> c in s;
      RemoveCommasNoComma(s[1..]);
      assert s == [s[0]] + s[1..];
    }
  }

  /** Removing the separators from the site's display leaves the decimal
      digits of the count. */
  lemma {:induction false} ThousandsDigits(n: nat)
    ensures IsDigits(RemoveCommas(Thousands(n)))
    ensures DigitsValue(RemoveCommas(Thousands(n))) == n
  {
    if n < 1000 {
      var d := Decimal(n);
      assert forall c :: c in d ==> IsDigit(c);
      RemoveCommasNoComma(d);
      DecimalValue(n);
    } else {
      var hi := Thousands(n / 1000);
      var lo := Pad3(n % 1000);
      ThousandsDigits(n / 1000);
      RemoveCommasAppend(hi + ",", lo);
      RemoveCommasAppend(hi, ",");
      assert forall c :: c in lo ==> IsDigit(c);
      RemoveCommasNoComma(lo);
      assert RemoveCommas(",") == "";
      assert RemoveCommas(Thousands(n)) == RemoveCommas(hi) + lo;
      DigitsValueAppend(RemoveCommas(hi), lo);
      Pad3Value(n % 1000);
      assert Pow10(3) == 1000;
      assert DigitsValue(RemoveCommas(Thousands(n))) == (n / 1000) * 1000 + n % 1000;
    }
  }

  lemma {:induction false} StripLeftSpaces(lead: string, x: string)
    requires AllSpace(lead)
    requires |x| > 0 && !IsSpace(x[0])
    ensures StripLeft(lead + x) == x
    decreases |lead|
  {
    if |lead| == 0 {
      assert lead + x == x;
    } else {
      assert (lead + x)[1..] == lead[1..] + x;
      StripLeftSpaces(lead[1..], x);
    }
  }

  lemma {:induction false} StripRightSpaces(x: string, trail: string)
    requires AllSpace(trail)
    requires |x| > 0 && !IsSpace(x[|x| - 1])
    ensures StripRight(x + trail) == x
    decreases |trail|
  {
    if |trail| == 0 {
      assert x + trail == x;
    } else {
      assert (x + trail)[..|x + trail| - 1] == x + trail[..|trail| - 1];
      StripRightSpaces(x, trail[..|trail| - 1]);
    }
  }

  /** int() reads a digit run, with or without a sign, inside any surrounding
      white space. */
  lemma ParseIntDigits(lead: string, sign: string, d: string, trail: string)
    requires AllSpace(lead) && AllSpace(trail) && IsDigits(d)
    requires sign == "" || sign == "+" || sign == "-"
    ensures ParseInt(lead + sign + d + trail) ==
      Some(if sign == "-" then -(DigitsValue(d) as int) else DigitsValue(d) as int)
  {
    var core := sign + d;
    assert lead + sign + d + trail == lead + (core + trail);
    StripLeftSpaces(lead, core + trail);
    StripRightSpaces(core, trail);
    assert Strip(lead + sign + d + trail) == core;
    if sign != "" {
      assert core[1..] == d;
    } else {
      assert core == d;
    }
  }

  /** The displayed count reads back exactly the count the site displayed. */
  lemma DisplayedCountRoundTrip(n: nat, rest: seq<string>)
    ensures DisplayedCount([Thousands(n)] + rest) == Success(n)
  {
    var d := RemoveCommas(Thousands(n));
    ThousandsDigits(n);
    ParseIntDigits("", "", d, "");
    assert "" + "" + d + "" == d;
  }

  /** A first page displaying `n` listings yields min(ceil(n / 24), 42)
      pages. */
  lemma PagesOfDisplayedCount(n: nat, rest: seq<string>)
    ensures PagesOfFirstPage([Thousands(n)] + rest) == Success(PageCount(n))
    ensures PageCount(n) == if (n + PerPage - 1) / PerPage < MaxPages then (n + PerPage - 1) / PerPage else MaxPages
  {
    DisplayedCountRoundTrip(n, rest);
    PageCountIsCappedCeiling(n, (n + PerPage - 1) / PerPage);
  }
}

=== FILE: query.dfy ===
/** The validated search a scraper instance holds: the URL, its kind and
    category, and the page count read from the first results page. The
    category comes from the validated path segment (`Search.Classify`)
    rather than from substring tests. */
module Query {
  import opened Wrappers
  import opened Search
  import opened Paging

  datatype SearchQuery = SearchQuery(url: string, segment: Segment, category: Category,
                                     displayedCount: int, pageCount: int)

  datatype QueryError = Invalid(validation: ValidationError) | UnreadableCount(count: CountError)

  /** Validation of the first fetch, then the displayed count and the page
      count of its body. `countMatches` are the count elements found on the
      first page. */
  function OpenSearch(status: Option<int>, url: string, countMatches: seq<string>): (r: Result<SearchQuery, QueryError>)
    ensures status != Some(200) ==> r == Failure(Invalid(BadStatus(status)))
    ensures r.Success? <==>
      status == Some(200) && (exists g :: IsSearchUrl(url, g)) && DisplayedCount(countMatches).Success?
    ensures r.Success? ==>
      && IsSearchUrl(url, r.value.segment)
      && Classify(url) == Success(r.value.category)
      && r.value.category == CategoryOf(r.value.segment)
      && DisplayedCount(countMatches) == Success(r.value.displayedCount)
      && r.value.pageCount == PageCount(r.value.displayedCount)
      && r.value.pageCount <= MaxPages
      && (r.value.pageCount == MaxPages ==> r.value.displayedCount > (MaxPages - 1) * PerPage)
      && (r.value.pageCount < MaxPages ==>
            (r.value.pageCount - 1) * PerPage < r.value.displayedCount <= r.value.pageCount * PerPage)
  {
    match ValidateUrl(status, url)
    case Failure(e) => Failure(Invalid(e))
    case Success(g) =>
      match DisplayedCount(countMatches)
      case Failure(e) => Failure(UnreadableCount(e))
      case Success(n) => Success(SearchQuery(url, g, CategoryOf(g), n, PageCount(n)))
  }
}

=== FILE: search.dfy ===
/** Search-URL validation (`_validate_url`) and search classification
    (`rent_or_sale`) of the Rightmove scraper. */
module Search {
  import opened Wrappers
  import opened Strings

  /** The five kinds of search page the validator accepts, in the order its
      pattern list names them. */
  datatype Segment = PropertyForSale | PropertyToRent | NewHomesForSale | CommercialForSale | CommercialToLet

  /** The kind of listing a search returns. */
  datatype Category = Sale | Rent | SaleCommercial | RentCommercial

  datatype ValidationError =
    | BadStatus(status: Option<int>)   // the first fetch did not answer 200
    | BadUrl(url: string)              // the URL is not one of the five search shapes

  /** The validator's pattern list, in its order. */
  const Segments: seq<Segment> :=
    [PropertyForSale, PropertyToRent, NewHomesForSale, CommercialForSale, CommercialToLet]

  /** The pattern list names every kind of search. */
  lemma SegmentsListed()
    ensures forall g :: g in Segments
  {
    forall g ensures g in Segments {
      match g
      case PropertyForSale =>
      case PropertyToRent =>
      case NewHomesForSale =>
      case CommercialForSale =>
      case CommercialToLet =>
    }
  }

  /** The path segment each kind of search lives under. */
  function SegmentName(g: Segment): string {
    match g
    case PropertyForSale => "property-for-sale"
    case PropertyToRent => "property-to-rent"
    case NewHomesForSale => "new-homes-for-sale"
    case CommercialForSale => "commercial-property-for-sale"
    case CommercialToLet => "commercial-property-to-let"
  }

  /** The text `rent_or_sale` returns for each category. */
  function CategoryName(c: Category): string {
    match c
    case Sale => "sale"
    case Rent => "rent"
    case SaleCommercial => "sale-commercial"
    case RentCommercial => "rent-commercial"
  }

  /** The category each kind of search is meant to yield. */
  function CategoryOf(g: Segment): Category {
    match g
    case PropertyForSale => Sale
    case NewHomesForSale => Sale
    case PropertyToRent => Rent
    case CommercialForSale => SaleCommercial
    case CommercialToLet => RentCommercial
  }

  const Host := "://www.rightmove.co.uk/"
  const Find := "/find.html?"

  /** What the pattern for `g` asks for after the scheme name "http". */
  function AfterHttp(g: Segment): string {
    Host + (SegmentName(g) + Find)
  }

  /** The literal text matched by the pattern for `g`, with (`secure`) or
      without the optional "s" of "https?". */
  function Pattern(secure: bool, g: Segment): string {
    "http" + (if secure then "s" + AfterHttp(g) else AfterHttp(g))
  }

  /** Reference meaning of "the URL matches the pattern for `g`": an anchored
      match with no trailing anchor is a prefix test on one of the two
      spellings. */
  predicate IsSearchUrl(url: string, g: Segment) {
    StartsWith(url, Pattern(false, g)) || StartsWith(url, Pattern(true, g))
  }

  /** The path marker `rent_or_sale` looks for. */
  function Marker(g: Segment): string {
    "/" + SegmentName(g) + "/"
  }

  /** One anchored pattern match, read left to right the way the regular
      expression runs: "http", an optional "s", then the fixed remainder. */
  predicate MatchesPattern(url: string, g: Segment) {
    if !StartsWith(url, "http") then false
    else
      var rest := url[4..];
      var afterScheme := if StartsWith(rest, "s") then rest[1..] else rest;
      StartsWith(afterScheme, AfterHttp(g))
  }

  /** `any(re.match(p, url) for p in url_patterns)`, reporting the first
      pattern in `gs` that matches. */
  function FirstMatch(url: string, gs: seq<Segment>): (r: Option<Segment>)
    ensures r.Some? ==> r.value in gs && MatchesPattern(url, r.value)
    ensures r.None? <==> forall g :: g in gs ==> !MatchesPattern(url, g)
  {
    if |gs| == 0 then None
    else if MatchesPattern(url, gs[0]) then Some(gs[0])
    else FirstMatch(url, gs[1..])
  }

  /** `_validate_url`: the status check comes first; then the URL must match
      one of the five patterns. On success the matched kind is returned. */
  function ValidateUrl(status: Option<int>, url: string): (r: Result<Segment, ValidationError>)
    ensures status != Some(200) ==> r == Failure(BadStatus(status))
    ensures status == Some(200) ==> (r.Success? <==> exists g :: IsSearchUrl(url, g))
    ensures r.Failure? && status == Some(200) ==> r.error == BadUrl(url)
    ensures r.Success? ==> IsSearchUrl(url, r.value)
  {
    if status != Some(200) then Failure(BadStatus(status))
    else
      MatchesPatternIsPrefixTest(url);
      SegmentsListed();
      match FirstMatch(url, Segments)
      case Some(g) => Success(g)
      case None => Failure(BadUrl(url))
  }

  /** The regular expression's left-to-right match agrees with the prefix
      test on both spellings of the scheme. */
  lemma MatchesPatternIsPrefixTest(url: string)
    ensures forall g :: MatchesPattern(url, g) <==> IsSearchUrl(url, g)
  {
    forall g ensures MatchesPattern(url, g) <==> IsSearchUrl(url, g) {
      MatchesPatternOne(url, g);
    }
  }

  lemma MatchesPatternOne(url: string, g: Segment)
    ensures MatchesPattern(url, g) <==> IsSearchUrl(url, g)
  {
    assert AfterHttp(g)[0] == Host[0] == ':';
    OptionalS(url, AfterHttp(g));
  }

  /** "http" then an optional "s" then `body`, where `body` cannot itself
      begin with "s", matches exactly the two spellings. */
  lemma OptionalS(url: string, body: string)
    requires |body| > 0 && body[0] != 's'
    ensures (StartsWith(url, "http") &&
             var rest := url[4..];
             StartsWith(if StartsWith(rest, "s") then rest[1..] else rest, body))
        <==> StartsWith(url, "http" + body) || StartsWith(url, "http" + ("s" + body))
  {
    PrefixSplit(url, "http", body);
    PrefixSplit(url, "http", "s" + body);
    if StartsWith(url, "http") {
      var rest := url[4..];
      PrefixSplit(rest, "s", body);
      if StartsWith(rest, "s") {
        assert !StartsWith(rest, body);
      } else {
        assert !StartsWith(rest, "s" + body);
      }
    }
  }

  /** Matching a two-part prefix is matching the first part and then the
      second part on what follows. */
  lemma PrefixSplit(s: string, a: string, b: string)
    ensures StartsWith(s, a + b) <==> StartsWith(s, a) && StartsWith(s[|a|..], b)
  {
    if StartsWith(s, a) && StartsWith(s[|a|..], b) {
      assert s[..|a + b|] == s[..|a|] + s[|a|..][..|b|];
    }
    if StartsWith(s, a + b) {
      assert s[..|a|] == (a + b)[..|a|];
      assert s[|a|..][..|b|] == (a + b)[|a|..];
    }
  }

  /** No two patterns match the same URL, so the order of the pattern list
      does not matter. */
  lemma PatternsExclusive(url: string, g: Segment, h: Segment)
    requires g != h
    ensures !(IsSearchUrl(url, g) && IsSearchUrl(url, h))
  {
    if IsSearchUrl(url, g) {
      MatchesPatternOne(url, g);
      MatchesPatternOne(url, h);
      var rest := url[4..];
      var afterScheme := if StartsWith(rest, "s") then rest[1..] else rest;
      assert StartsWith(afterScheme, AfterHttp(g));
      var k := |Host|;
      PrefixSplit(afterScheme, Host, SegmentName(g) + Find);
      PrefixSplit(afterScheme, Host, SegmentName(h) + Find);
      var tail := afterScheme[k..];
      NameThenFind(tail, g);
      NameThenFind(tail, h);
      NamesSlashFree(g);
      NamesSlashFree(h);
      NamesDistinct(g, h);
      SlashTerminated(SegmentName(h), SegmentName(g), tail);
      assert !MatchesPattern(url, h);
    }
  }

  /** Matching a segment followed by the page name implies matching the
      segment followed by "/". */
  lemma NameThenFind(s: string, g: Segment)
    ensures StartsWith(s, SegmentName(g) + Find) ==> StartsWith(s, SegmentName(g) + "/")
  {
    PrefixSplit(s, SegmentName(g), Find);
    PrefixSplit(s, SegmentName(g), "/");
    assert Find[..1] == "/";
  }

  lemma NamesSlashFree(g: Segment)
    ensures '/' !in SegmentName(g)
  {
  }

  lemma NamesDistinct(g: Segment, h: Segment)
    requires g != h
    ensures SegmentName(g) != SegmentName(h)
  {
    assert |SegmentName(g)| != |SegmentName(h)|;
  }

  /** The first match is the only match. */
  lemma FirstMatchIsTheMatch(url: string, g: Segment)
    requires IsSearchUrl(url, g)
    ensures FirstMatch(url, Segments) == Some(g)
  {
    MatchesPatternIsPrefixTest(url);
    SegmentsListed();
    var r := FirstMatch(url, Segments);
    assert r.Some?;
    if r.value != g {
      PatternsExclusive(url, g, r.value);
    }
  }

  /** `rent_or_sale` as written: substring tests anywhere in the URL, in the
      source's order. */
  function RentOrSale(url: string): (r: Result<Category, ValidationError>)
    ensures r.Success? <==> exists g :: Contains(url, Marker(g))
    ensures r.Success? ==> exists g :: Contains(url, Marker(g)) && CategoryOf(g) == r.value
    ensures r.Failure? ==> r.error == BadUrl(url)
    // The first test that holds decides: sale markers, then rent, then
    // commercial for sale, then commercial to let.
    ensures r == Success(Sale) <==>
      Contains(url, Marker(PropertyForSale)) || Contains(url, Marker(NewHomesForSale))
    ensures r == Success(Rent) <==>
      && !Contains(url, Marker(PropertyForSale)) && !Contains(url, Marker(NewHomesForSale))
      && Contains(url, Marker(PropertyToRent))
    ensures r == Success(SaleCommercial) <==>
      && !Contains(url, Marker(PropertyForSale)) && !Contains(url, Marker(NewHomesForSale))
      && !Contains(url, Marker(PropertyToRent))
      && Contains(url, Marker(CommercialForSale))
    ensures r == Success(RentCommercial) <==>
      && !Contains(url, Marker(PropertyForSale)) && !Contains(url, Marker(NewHomesForSale))
      && !Contains(url, Marker(PropertyToRent)) && !Contains(url, Marker(CommercialForSale))
      && Contains(url, Marker(CommercialToLet))
  {
    if Contains(url, Marker(PropertyForSale)) || Contains(url, Marker(NewHomesForSale)) then
      if Contains(url, Marker(PropertyForSale)) then
        assert CategoryOf(PropertyForSale) == Sale;
        Success(Sale)
      else
        assert CategoryOf(NewHomesForSale) == Sale;
        Success(Sale)
    else if Contains(url, Marker(PropertyToRent)) then
      assert CategoryOf(PropertyToRent) == Rent;
      Success(Rent)
    else if Contains(url, Marker(CommercialForSale)) then
      assert CategoryOf(CommercialForSale) == SaleCommercial;
      Success(SaleCommercial)
    else if Contains(url, Marker(CommercialToLet)) then
      assert CategoryOf(CommercialToLet) == RentCommercial;
      Success(RentCommercial)
    else
      SegmentsListed();
      Failure(BadUrl(url))
  }

  /** Classification from the validated path segment: the category of the one
      pattern the URL matches, and an error when it matches none. */
  function Classify(url: string): (r: Result<Category, ValidationError>)
    ensures r.Success? <==> exists g :: IsSearchUrl(url, g)
    ensures forall g :: IsSearchUrl(url, g) ==> r == Success(CategoryOf(g))
    ensures r.Failure? ==> r.error == BadUrl(url)
  {
    MatchesPatternIsPrefixTest(url);
    forall g | IsSearchUrl(url, g) ensures FirstMatch(url, Segments) == Some(g) {
      FirstMatchIsTheMatch(url, g);
    }
    match FirstMatch(url, Segments)
    case Some(g) => Success(CategoryOf(g))
    case None => Failure(BadUrl(url))
  }
}

=== FILE: strings.dfy ===
/** Python's `str.startswith` / anchored `re.match` on a literal pattern, and
    Python's substring test `m in s`, with the lemmas used to decide whether a
    path marker such as "/property-for-sale/" occurs in a search URL. */
module Strings {

  /** `p` is a prefix of `s`. */
  predicate StartsWith(s: string, p: string) {
    |p| <= |s| && s[..|p|] == p
  }

  /** Python's `m in s`: `m` occurs at some position of `s`. */
  predicate Contains(s: string, m: string)
    decreases |s|
  {
    StartsWith(s, m) || (|s| > 0 && Contains(s[1..], m))
  }

  /** A string contains whatever it is built around. */
  lemma {:induction false} ContainsMiddle(a: string, m: string, b: string)
    ensures Contains(a + m + b, m)
    decreases |a|
  {
    if |a| == 0 {
      assert a + m + b == m + b;
      assert StartsWith(m + b, m);
    } else {
      assert (a + m + b)[1..] == a[1..] + m + b;
      ContainsMiddle(a[1..], m, b);
    }
  }

  /** A leading block that lacks the first character of `m` cannot hold the
      start of an occurrence of `m`. */
  lemma {:induction false} SkipFree(a: string, b: string, m: string)
    requires |m| > 0 && m[0] !in a
    ensures Contains(a + b, m) <==> Contains(b, m)
    decreases |a|
  {
    if |a| > 0 {
      assert a[0] in a;
      assert !StartsWith(a + b, m);
      assert (a + b)[1..] == a[1..] + b;
      assert forall c :: c in a[1..] ==> c in a;
      SkipFree(a[1..], b, m);
    } else {
      assert a + b == b;
    }
  }

  /** A character followed by something other than `m`'s second character
      cannot start an occurrence of `m`. */
  lemma SkipMismatch(c: char, b: string, m: string)
    requires |m| >= 2 && |b| >= 1 && b[0] != m[1]
    ensures Contains([c] + b, m) <==> Contains(b, m)
  {
    assert ([c] + b)[1] == b[0];
    assert !StartsWith([c] + b, m);
    assert ([c] + b)[1..] == b;
  }

  /** Nothing longer than `s` occurs in `s`. */
  lemma {:induction false} TooLong(s: string, m: string)
    requires |s| < |m|
    ensures !Contains(s, m)
    decreases |s|
  {
    if |s| > 0 {
      TooLong(s[1..], m);
    }
  }

  /** Two slash-free names, each followed by "/", line up at the start of a
      string only when they are the same name. */
  lemma SlashTerminated(x: string, y: string, s: string)
    requires '/' !in x && '/' !in y
    requires StartsWith(s, y + "/")
    ensures StartsWith(s, x + "/") <==> x == y
  {
    var p := x + "/";
    assert forall i :: 0 <= i <= |y| ==> s[i] == (y + "/")[i];
    if |x| < |y| {
      assert y[|x|] in y;
      assert s[|x|] != p[|x|];
    } else if |x| > |y| {
      assert x[|y|] in x;
      assert |s| <= |y| || s[|y|] != p[|y|];
    } else if x != y {
      var i :| 0 <= i < |x| && x[i] != y[i];
      assert s[i] != p[i];
    }
  }
}

=== FILE: wrappers.dfy ===
/** Failure-carrying wrappers shared by the scraper model: an optional value
    (the scraper's NaN / None "missing" marker) and a value-or-error result
    (the scraper's raised ValueError / KeyError). */
module Wrappers {

  datatype Option<+T> = None | Some(value: T)

  datatype Result<+R, +E> = Success(value: R) | Failure(error: E)
}
